=== FILE: README.md ===
# gradonacci decision rules in Dafny

gradonacci is a 2D physics sandbox built on the Bevy engine. A player-controlled shape spawns and despawns physics cubes. A two-body robot hangs from a rope joint. A UI button switches the click mode. Entities that fall too far are culled.

Almost all of the code wires engine and physics primitives together. This project models the small, pure decision rules inside those systems as immutable datatypes and pure functions:

- **Shape synchronization** (`RobotConstructor`). A `Shape` value drives the mesh and collider attached to an entity through the insert observer. An `EntityColor` drives the material through the add observer. The robot is a head and a ball joined by a rope. The entity store is a `map` from entity handle to the components these rules touch. Each observer is a function from store to store.
- **Player skills** (`PlayerSkills`). These cover the G-key shape toggle, spawning a cube under the mouse, despawning the first cube under the mouse, and tracking the cursor.
- **Mouse coordinates** (`MouseInteraction`). This is the resource the skills read.
- **Click-mode button** (`UiSystems`). The mode toggles between SpawnCube and JoinCube, and the button's text and colours follow each interaction.
- **Lower-bound culler** (`LowerBoundCuller`). It makes one sequential pass that despawns every entity strictly below y = -150.
- **Older player revision** (`LegacyPlayer`). This revision uses the avian back-end. It keeps the mouse coordinates on the player and counts spawned cubes in a `u32`.

Shared stand-ins for the engine's values are in `EngineTypes`: vectors, colours, meshes, both back-ends' colliders, and the `Cube` record. Sizes are `f32` in the source but are only copied, doubled, halved or compared, so they are `real` here. Rapier's cuboid collider takes half extents and avian's rectangle takes full extents. `MeshExtent` and `ColliderExtent` put both in full extents, so the footprints can be compared.

Engine inputs become parameters of the functions:

- which keys and buttons are held
- whether the spawn timer has finished after this frame's tick
- where the cursor maps in the world
- which rows a query yields, and in what order
- which fresh entity handles get allocated

The deferred command queue becomes the order in which functions are composed. The culler and the despawn skill return the entities they despawn.

Behaviour worth knowing:

- **The colour observer listens for additions only.** Replacing an entity's colour leaves the material built from the old colour in place (`InsertColor`).
- **Toggling a shape twice is not a round trip for non-square rectangles.** The height is discarded (`ToggleTwiceIdentityIff`, `ToggleTwiceDropsHeight`).

## Model

| member | source | states |
|---|---|---|
| RobotConstructor.MeshBundle | src/robot_constructor.rs:44-54 | The mesh's full extent equals the collider's full extent for every shape. A circle of radius r gets a circle mesh of radius r and a ball collider of radius r. A rectangle {w, h} gets a 2w by 2h mesh and a cuboid with half extents (w, h). The mesh kind follows the shape variant. |
| RobotConstructor.ColliderDeterminesShape | src/robot_constructor.rs:44-54 | The shape can be read back from its derived collider. |
| RobotConstructor.MeshBundleInjective | src/robot_constructor.rs:44-54 | Two shapes derive the same mesh and collider exactly when they are equal. |
| RobotConstructor.OnInsertShape | src/robot_constructor.rs:33-56 | If the target is missing or holds no shape, nothing changes. Otherwise the target's mesh and collider are replaced by those derived from its current shape. Its other components and all other entities are untouched. |
| RobotConstructor.OnAddEntityColor | src/robot_constructor.rs:12-22 | The colour must be present, because it is unwrapped. The material becomes a colour material of exactly that colour. Nothing else changes. |
| RobotConstructor.InsertShape | src/robot_constructor.rs:33-56 | After a shape is inserted on a live entity, the entity holds that shape, and its mesh and collider are the ones derived from it. Nothing else changes. |
| RobotConstructor.InsertShapeLastWins | src/robot_constructor.rs:33-56 | Inserting s1 and then s2 gives the same store as inserting s2 alone, so no stale derived state survives. |
| RobotConstructor.InsertColor | src/robot_constructor.rs:12-22 | Inserting a colour stores it. When the colour is newly added, the material follows it. When it replaces an earlier colour, the observer does not fire and the material is kept. |
| RobotConstructor.InsertShapeColorCommute | src/robot_constructor.rs:12-56 | Setting a shape and setting a colour on a live entity give the same store in either order, because each observer writes only what follows from its own input. |
| RobotConstructor.Spawn | src/robot_constructor.rs:9-23 | A spawned bundle gets its part, shape, colour and translation. Both observers fire, so its mesh and collider match its shape and its material matches its colour. It has no joint. The rest of the store is untouched. |
| RobotConstructor.RobotHead | src/robot_constructor.rs:79-89 | The head is `Rectangle{width, height}` built from its (height, width) arguments, with the green head colour. |
| RobotConstructor.RobotBall | src/robot_constructor.rs:90-102 | The ball is `Circle{radius}` built from its argument, with the blue ball colour. |
| RobotConstructor.SpawnRobot | src/robot_constructor.rs:58-75 | The function returns the head. The ball (the child) carries a rope joint of length 30 to the head (the parent), with anchors (0, -2·60) and (0, 40/2). The head is a 30 by 40 rapier cuboid with a 60 by 80 mesh. The ball has a radius-60 ball collider and a radius-60 circle mesh. Both are synchronized and coloured, and no other entity changes. |
| MouseInteraction.ToVec2 | src/player/mouse_interaction_plugin.rs:25-32 | The conversion keeps x and y. |
| MouseInteraction.ToVec2Injective | src/player/mouse_interaction_plugin.rs:25-32 | Two records convert to the same vector exactly when they are equal. |
| MouseInteraction.Default | src/player/mouse_interaction_plugin.rs:33-37 | The default coordinate is (0, 0). |
| MouseInteraction.Update | src/player/mouse_interaction_plugin.rs:20-23 | After `update(x, y)` the coordinates read back as exactly (x, y). |
| MouseInteraction.UpdateForgetsPrevious | src/player/mouse_interaction_plugin.rs:20-23 | The result of an update does not depend on the previous value. |
| MouseInteraction.UpdateFromVec2RoundTrip | src/player/mouse_interaction_plugin.rs:20-32 | Updating with a record's converted coordinates reproduces that record. |
| MouseInteraction.AddChild | src/player/mouse_interaction_plugin.rs:40 | The placeholder system leaves the resource unchanged. |
| PlayerSkills.ToggleShape | src/player/player_plugin.rs:43-49 | The toggle always flips the variant and carries the size across (radius to width, width to radius). A rectangle it produces is always square. A valid shape stays valid. |
| PlayerSkills.ToggleTwice | src/player/player_plugin.rs:43-49 | A double toggle returns a circle unchanged and turns `Rectangle{w, h}` into `Rectangle{w, w}`. |
| PlayerSkills.ToggleTwiceIdentityIff | src/player/player_plugin.rs:43-49 | A double toggle is the identity exactly on circles and square rectangles. |
| PlayerSkills.ToggleTwiceDropsHeight | src/player/player_plugin.rs:48 | A 10 by 40 rectangle comes back as a 10 by 10 square, not as itself. |
| PlayerSkills.ChangeShape | src/player/player_plugin.rs:36-53 | An insertion is issued exactly when G was just released and the query holds exactly one player. It targets that player with the toggled shape. |
| PlayerSkills.ApplyChangeShape | src/player/player_plugin.rs:36-53 | The toggle followed by the shape observer leaves the store unchanged unless it fires. When it fires, the player holds the toggled shape and the matching mesh and collider. The player's other components and all other entities are unchanged. |
| PlayerSkills.UpdateMousePlayerCoor | src/player/player_plugin.rs:103-120 | The coordinates change only when the cursor maps to a world position, and then they become exactly that position. |
| PlayerSkills.SpawnCubeSkill | src/player/player_plugin.rs:145-180 | A cube spawns exactly when the left button and P are held and the timer has finished. The timer is reset exactly then. The cube is a 30 by 30 `Cube` at the mouse coordinates with `Circle{radius: 20}`. |
| PlayerSkills.FirstCandidate | src/player/player_plugin.rs:131-140 | The result is the index of the first row that is not terrain and lies strictly within half its height of the mouse. Every earlier row fails that test. It is None exactly when no row passes. |
| PlayerSkills.DespawnCubeSkill | src/player/player_plugin.rs:121-144 | Nothing is despawned unless the right button is held. Then exactly the first candidate in query order is despawned, or nothing if there is none. |
| PlayerSkills.TerrainNeverPicked | src/player/player_plugin.rs:123 | When every row is terrain, nothing is picked. |
| PlayerSkills.SpawnedCubeIsCandidate | src/player/player_plugin.rs:131-167 | A cube spawned with the left button and P held and the timer finished lies within reach of the mouse that placed it. A despawn pick over any query where no earlier row is a candidate selects it. |
| UiSystems.Flip | src/ui/systems.rs:24-33 | A press always changes the mode. |
| UiSystems.LabelNamesMode | src/ui/systems.rs:24-33 | The text written for a mode names that mode. |
| UiSystems.ButtonStep | src/ui/systems.rs:22-46 | A press flips the mode and writes a text that names the new mode. Hovered and None keep both the mode and the text. The colours are PRESSED_BUTTON with a red border on a press, HOVERED_BUTTON with a white border on hover, and NORMAL_BUTTON with a black border on None. |
| UiSystems.PressTwiceRestoresMode | src/ui/systems.rs:24-33 | Two presses restore the original mode. |
| UiSystems.ButtonSystem | src/ui/systems.rs:7-48 | Only buttons whose interaction changed are touched. Every button keeps its interaction and its changed flag. Each touched button's colours follow its own interaction. Only pressed buttons get new text. The final mode is the initial one flipped once per press. Each pressed button's text names the mode just after its own press, counting the presses before it in query order. |
| UiSystems.ProcessedCons | src/ui/systems.rs:20-47 | Processing one more button in front of a processed query still meets every per-button guarantee of the system, with the mode flipped by that button's press. |
| UiSystems.ProcessedConsAt | src/ui/systems.rs:20-47 | The same guarantee for a single button: the first button is handled by the loop body, and every later one keeps what processing the rest gave it, its text naming the mode counted from the start. |
| UiSystems.FlipTimesAdd | src/ui/systems.rs:24-33 | Flipping a times and then b times is the same as flipping a + b times. |
| UiSystems.PressesThroughTail | src/ui/systems.rs:20-23 | The number of presses up to button i is the first button's press plus the presses up to button i - 1 in the rest of the query. |
| UiSystems.LastPressNamesFinalMode | src/ui/systems.rs:20-33 | When no button after a pressed one is pressed, that button's text names the final mode. |
| UiSystems.PressedCountAppend | src/ui/systems.rs:20-23 | The presses in two concatenated queries are the presses in each part. |
| LowerBoundCuller.Culled | examples/granular_update_pipeline.rs:42-46 | Every row with y < -150 has its entity despawned, and every despawned entity belongs to such a row. |
| LowerBoundCuller.Survivors | examples/granular_update_pipeline.rs:42-46 | Every surviving row has y >= -150 and is an unchanged row of the input. |
| LowerBoundCuller.DespawnWhenSurpassLowerBound | examples/granular_update_pipeline.rs:35-47 | The loop issues exactly the despawns of rows strictly below -150, in query order. |
| LowerBoundCuller.CulledAppend | examples/granular_update_pipeline.rs:42-46 | The despawns for two concatenated queries are the despawns for each part, in order. |
| LowerBoundCuller.SurvivorsAppend | examples/granular_update_pipeline.rs:42-46 | The survivors of two concatenated queries are the survivors of each part, in order. |
| LowerBoundCuller.SurvivorsCount | examples/granular_update_pipeline.rs:42-46 | A row below the bound never survives. Any other row survives as often as it occurs. |
| LowerBoundCuller.OrderIndependent | examples/granular_update_pipeline.rs:42-46 | Queries that are permutations of each other leave the same multiset of survivors. |
| LowerBoundCuller.CulledAndSurvivorsPartition | examples/granular_update_pipeline.rs:42-46 | Every row is either despawned or survives. |
| LowerBoundCuller.CullIdempotent | examples/granular_update_pipeline.rs:42-46 | A second pass over the survivors despawns nothing and keeps every survivor. |
| LowerBoundCuller.OnBoundSurvives | examples/granular_update_pipeline.rs:43 | The comparison is strict, so a row at exactly y = -150 survives. |
| LowerBoundCuller.EmptyQueryIsNoOp | examples/granular_update_pipeline.rs:42 | An empty query despawns nothing. |
| LowerBoundCuller.ApplyDespawnsFilters | examples/granular_update_pipeline.rs:44 | In a flat store, a despawn list that marks exactly the rows below the bound leaves exactly the survivors. |
| LowerBoundCuller.CommandsLeaveSurvivors | examples/granular_update_pipeline.rs:42-46 | When each entity occurs once and the store is flat, applying the pass's despawns leaves exactly the survivors. |
| LegacyPlayer.SpawnPlayer | src/player_plugin.rs:30-55 | A new player has `n_cube = 0` and `mouse_coor = (0, 0)`. Its collider is avian's 10 by 100 rectangle and its mesh is a 10 by 100 rectangle, so both have the same full extents. |
| LegacyPlayer.MyCursorSystem | src/player_plugin.rs:83-100 | `mouse_coor` is overwritten only when the cursor maps to a world position, and then with exactly that position. The counter is untouched. |
| LegacyPlayer.SpawnCubeSkill | src/player_plugin.rs:102-131 | A cube spawns exactly when the left button is held and the timer has finished, and the timer is reset exactly then. The cube is placed at the stored `mouse_coor` and is a 30 by 30 record with a 30 by 30 rectangle mesh. `n_cube` goes up by exactly one per spawn and is otherwise unchanged. Incrementing at `u32::MAX` overflows. |
| LegacyPlayer.CounterCountsSpawns | src/player_plugin.rs:21-131 | Each frame runs both the cursor system and the spawn skill, in either order. Over any run of frames that fits in 32 bits, `n_cube` grows by exactly the number of frames that spawned, wherever the cursor goes. `mouse_coor` ends at the last world position the cursor mapped to, or keeps its start value if the cursor never mapped. |
| LegacyPlayer.CounterOverflowStops | src/player_plugin.rs:21-131 | A run with more spawns than the counter can hold overflows, whatever the cursor does and in either system order. |

## Left out

- Engine machinery is not modelled: observer registration and trigger dispatch, the deferred command queue, asset storage and handles, query iteration order, and change detection. Each becomes a parameter, a `changed` flag, or the order in which functions are composed.
- `Timer` internals are not modelled. "Timer finished after this frame's tick" is a boolean input, and the reset is an output flag. Whether the next frame's timer is finished is not modelled.
- Cursor-to-world projection is not modelled. Its outcome is an `Option` input.
- Physics (joint solving, collisions, mass, gravity scale, rigid-body kind) is not modelled, because it belongs to rapier or avian. So are the velocity and mass components of the bundles.
- Which body each rope anchor attaches to is decided by rapier. The model records the two anchors as the joint stores them.
- The `join_cube` observer attached to both robot parts is not part of this model.
- `move_player` in both revisions, `move_line`, the camera, rotation input, terrain placement with random colours, and the UI button bundle and layout are left out. They are float numerics driven by frame time, rendering, or styling.
- `spawn_player` in src/player/player_plugin.rs spawns a fixed `Circle{radius: 34}` bundle and triggers an event nothing observes. It is left out.
- The culler has only its sequential pass; this code has no parallel variant and no population counter, so none is modelled.
- LowerBoundCuller.CommandsLeaveSurvivors: the store is a flat list of rows with no parent/child hierarchy. A despawn in the engine also removes the entity's descendants, and that is not modelled, so the result holds only for entities without children.
- The second culler example and the `configure_sets` schedule calls are left out, because they configure the engine schedule and have no logic of their own.
- PlayerSkills.DespawnCubeSkill: the distance test `distance < height / 2` is stated without the square root, as "half the height is positive and the squared distance is below its square". Over the reals this is equivalent. `f32` rounding and NaN are not modelled.
- LegacyPlayer.SpawnCubeSkill: the `u32` increment at its maximum is modelled as the debug-build overflow stop. The release-build wrap-around to 0 is not modelled. The `single().unwrap()` panics on a missing or duplicated player are excluded by passing the one player as a parameter.
- UiSystems.ButtonSystem: the `unwrap` of the button's child text is assumed to succeed. Every button carries its text.
- UiSystems.ButtonSystem: the system takes the player through `Single`, so the engine runs it only when exactly one player exists. The model always runs it, with the player's mode as a parameter.
- PlayerSkills.UpdateMousePlayerCoor: the panics of `windows.single()` followed by `unwrap` and of `camera_q.single().unwrap()`, when there is not exactly one window or one camera, are not modelled.
- LegacyPlayer.MyCursorSystem: the same window and camera `unwrap` panics, and the panic of `player.single_mut().unwrap()` on a missing or duplicated player, are not modelled. The one player is passed as a parameter.
- Sizes are `real`, so `f32` rounding of the doubled rectangle sizes is not modelled.

=== FILE: engine_types.dfy ===
/** Plain stand-ins for the engine and physics-plugin values that the game's
    decision rules read and write. Only the fields those rules touch are kept;
    handles into asset storage are replaced by the asset values themselves. */
module EngineTypes {

  datatype Option<+T> = None | Some(value: T)

  /** An entity handle. Allocation belongs to the engine. */
  type EntityId = nat

  datatype Vec2 = Vec2(x: real, y: real)

  datatype Vec3 = Vec3(x: real, y: real, z: real)

  /** A linear RGB colour, as built by `Color::linear_rgb`. */
  datatype Color = LinearRgb(r: real, g: real, b: real)

  /** A colour material asset. */
  datatype Material = ColorMaterial(color: Color)

  /** A 2D mesh asset. Bevy measures a rectangle mesh by its full width and height. */
  datatype Mesh = CircleMesh(radius: real) | RectangleMesh(width: real, height: real)

  /** Colliders of the two physics back-ends used across the revisions:
      rapier's cuboid takes half extents, avian's rectangle takes full extents. */
  datatype Collider =
    | RapierBall(radius: real)
    | RapierCuboid(halfWidth: real, halfHeight: real)
    | AvianRectangle(width: real, height: real)

  /** The `Cube` record of src/cube.rs: just its nominal size. */
  datatype Cube = Cube(width: real, height: real)

  /** Full width and height of the box a mesh occupies. */
  function MeshExtent(m: Mesh): Vec2 {
    match m
    case CircleMesh(r) => Vec2(2.0 * r, 2.0 * r)
    case RectangleMesh(w, h) => Vec2(w, h)
  }

  /** Full width and height of the box a collider occupies, in the
      convention of the back-end it belongs to. */
  function ColliderExtent(c: Collider): Vec2 {
    match c
    case RapierBall(r) => Vec2(2.0 * r, 2.0 * r)
    case RapierCuboid(hw, hh) => Vec2(2.0 * hw, 2.0 * hh)
    case AvianRectangle(w, h) => Vec2(w, h)
  }
}

=== FILE: legacy_player.dfy ===
/** The older player revision (src/player_plugin.rs), built on avian: the
    player carries its own mouse coordinates and counts the cubes it has
    spawned in a 32-bit unsigned counter. */
module LegacyPlayer {
  import opened EngineTypes

  const U32Max: nat := 0xFFFF_FFFF

  type U32 = n: nat | n <= U32Max

  /** The player component. */
  datatype Player = Player(mouseCoor: (real, real), nCube: U32)

  /** The player entity as spawned. */
  datatype PlayerSpawn = PlayerSpawn(player: Player, collider: Collider, mesh: Mesh, translation: Vec3)

  const PlayerWidth: real := 10.0
  const PlayerHeight: real := 100.0

  /** The spawned player starts at the origin with no cubes, and its avian
      collider spans exactly its 10 by 100 mesh. */
  function SpawnPlayer(): (s: PlayerSpawn)
    ensures s.player.nCube == 0 && s.player.mouseCoor == (0.0, 0.0)
    ensures ColliderExtent(s.collider) == MeshExtent(s.mesh)
    ensures s.collider == AvianRectangle(PlayerWidth, PlayerHeight)
    ensures s.mesh == RectangleMesh(PlayerWidth, PlayerHeight)
    ensures MeshExtent(s.mesh) == Vec2(PlayerWidth, PlayerHeight)
  {
    PlayerSpawn(
      Player((0.0, 0.0), 0),
      AvianRectangle(PlayerWidth, PlayerHeight),
      RectangleMesh(PlayerWidth, PlayerHeight),
      Vec3(0.0, 0.0, 0.0))
  }

  /** The cursor system: the stored coordinates change only when the cursor
      maps to a world position; the counter never changes. */
  function MyCursorSystem(worldPosition: Option<Vec2>, p: Player): (r: Player)
    ensures r.nCube == p.nCube
    ensures worldPosition.None? ==> r == p
    ensures worldPosition.Some? ==> r.mouseCoor == (worldPosition.value.x, worldPosition.value.y)
  {
    match worldPosition
    case None => p
    case Some(v) => p.(mouseCoor := (v.x, v.y))
  }

  const CubeColor: Color := LinearRgb(0.0, 0.0, 1.0)

  /** A cube this revision spawns. */
  datatype CubeSpawn = CubeSpawn(cube: Cube, translation: Vec3, mesh: Mesh, material: Material)

  /** One run of the spawn skill: whether the timer was reset, the cube
      spawned if any, and the player afterwards. */
  datatype SpawnTick = SpawnTick(resetTimer: bool, spawned: Option<CubeSpawn>, player: Player)

  /** A run either completes, or increments the counter past its maximum,
      which stops the program in a debug build. */
  datatype TickResult = Ticked(tick: SpawnTick) | CounterOverflow

  /** The spawn skill: a cube spawns when the left button is held and the
      timer has finished (after this frame's tick). */
  function SpawnCubeSkill(leftPressed: bool, timerFinished: bool, p: Player): (r: TickResult)
    ensures r.CounterOverflow? <==> leftPressed && timerFinished && p.nCube == U32Max
    ensures r.Ticked? ==> (r.tick.spawned.Some? <==> leftPressed && timerFinished)
    ensures r.Ticked? ==> (r.tick.resetTimer <==> r.tick.spawned.Some?)
    ensures r.Ticked? ==> r.tick.player.mouseCoor == p.mouseCoor
    ensures r.Ticked? ==> r.tick.player.nCube == p.nCube + (if r.tick.spawned.Some? then 1 else 0)
    ensures r.Ticked? && r.tick.spawned.Some? ==>
              var c := r.tick.spawned.value;
              && c.translation == Vec3(p.mouseCoor.0, p.mouseCoor.1, 0.0)
              && c.cube == Cube(30.0, 30.0)
              && c.mesh == RectangleMesh(c.cube.width, c.cube.height)
              && c.material == ColorMaterial(CubeColor)
  {
    if leftPressed && timerFinished then
      if p.nCube == U32Max then CounterOverflow
      else
        var cube := CubeSpawn(
          Cube(30.0, 30.0),
          Vec3(p.mouseCoor.0, p.mouseCoor.1, 0.0),
          RectangleMesh(30.0, 30.0),
          ColorMaterial(CubeColor));
        Ticked(SpawnTick(true, Some(cube), p.(nCube := p.nCube + 1)))
    else
      Ticked(SpawnTick(false, None, p))
  }

  /** The inputs of one Update frame: the left button, the timer, where the
      cursor maps in the world, and which of the two unordered systems, the
      cursor system or the spawn skill, the engine happens to run first. */
  datatype Frame = Frame(leftPressed: bool, timerFinished: bool, worldPosition: Option<Vec2>, cursorFirst: bool)

  /** The number of frames that spawn a cube. */
  function SpawnCount(frames: seq<Frame>): nat {
    if |frames| == 0 then 0
    else (if frames[0].leftPressed && frames[0].timerFinished then 1 else 0) + SpawnCount(frames[1..])
  }

  /** The stored coordinates after a run of frames that starts from `c`: the
      last world position the cursor mapped to, or `c` if it never did. */
  function LastCursor(frames: seq<Frame>, c: (real, real)): (real, real) {
    if |frames| == 0 then c
    else
      match frames[0].worldPosition
      case None => LastCursor(frames[1..], c)
      case Some(v) => LastCursor(frames[1..], (v.x, v.y))
  }

  /** One frame: both systems run, in the order the engine picks. */
  function RunFrame(p: Player, f: Frame): Option<Player> {
    var before := if f.cursorFirst then MyCursorSystem(f.worldPosition, p) else p;
    match SpawnCubeSkill(f.leftPressed, f.timerFinished, before)
    case CounterOverflow => None
    case Ticked(t) => Some(if f.cursorFirst then t.player else MyCursorSystem(f.worldPosition, t.player))
  }

  /** The player after a run of frames, or None once the counter overflows. */
  function RunFrames(p: Player, frames: seq<Frame>): Option<Player>
    decreases |frames|
  {
    if |frames| == 0 then Some(p)
    else
      match RunFrame(p, frames[0])
      case None => None
      case Some(p1) => RunFrames(p1, frames[1..])
  }

  /** The counter counts spawns exactly, as long as it fits in 32 bits,
      wherever the cursor goes and whichever system runs first; the stored
      coordinates end at the cursor's last world position. */
  lemma {:induction false} CounterCountsSpawns(p: Player, frames: seq<Frame>)
    requires p.nCube + SpawnCount(frames) <= U32Max
    ensures RunFrames(p, frames).Some?
    ensures RunFrames(p, frames).value.nCube == p.nCube + SpawnCount(frames)
    ensures RunFrames(p, frames).value.mouseCoor == LastCursor(frames, p.mouseCoor)
    decreases |frames|
  {
    if |frames| > 0 {
      var f := frames[0];
      var before := if f.cursorFirst then MyCursorSystem(f.worldPosition, p) else p;
      var t := SpawnCubeSkill(f.leftPressed, f.timerFinished, before).tick;
      var p1 := if f.cursorFirst then t.player else MyCursorSystem(f.worldPosition, t.player);
      assert RunFrame(p, f) == Some(p1);
      CounterCountsSpawns(p1, frames[1..]);
    }
  }

  /** More spawns than the counter can hold stop the run, whatever the
      cursor does. */
  lemma {:induction false} CounterOverflowStops(p: Player, frames: seq<Frame>)
    requires p.nCube + SpawnCount(frames) > U32Max
    ensures RunFrames(p, frames).None?
    decreases |frames|
  {
    if |frames| > 0 {
      match RunFrame(p, frames[0])
      case None =>
      case Some(p1) =>
        CounterOverflowStops(p1, frames[1..]);
    }
  }
}

=== FILE: lower_bound_culler.dfy ===
/** The lower-bound culler (examples/granular_update_pipeline.rs): every
    entity whose height is strictly below -150 is despawned, in one
    sequential pass over the query. */
module LowerBoundCuller {
  import opened EngineTypes

  const LowerBound: real := -150.0

  /** One row of the query: an entity and its translation. */
  datatype Positioned = Positioned(entity: EntityId, translation: Vec3)

  predicate BelowBound(p: Positioned) {
    p.translation.y < LowerBound
  }

  /** The despawn commands the pass issues, in query order. */
  function Culled(q: seq<Positioned>): (r: seq<EntityId>)
    ensures |r| <= |q|
    ensures forall i :: 0 <= i < |q| && BelowBound(q[i]) ==> q[i].entity in r
    ensures forall e :: e in r ==> exists i :: 0 <= i < |q| && q[i].entity == e && BelowBound(q[i])
  {
    if |q| == 0 then []
    else (if BelowBound(q[0]) then [q[0].entity] else []) + Culled(q[1..])
  }

  /** The rows left once the commands have been applied, given that each
      entity appears once in the query. */
  function Survivors(q: seq<Positioned>): (r: seq<Positioned>)
    ensures |r| <= |q|
    ensures forall i :: 0 <= i < |r| ==> r[i].translation.y >= LowerBound
    ensures forall p :: p in r ==> p in q
  {
    if |q| == 0 then []
    else (if BelowBound(q[0]) then [] else [q[0]]) + Survivors(q[1..])
  }

  /** The sequential pass as the engine runs it: one visit per row. Its
      commands are the reference list above, so they carry its contract. */
  method DespawnWhenSurpassLowerBound(q: seq<Positioned>) returns (commands: seq<EntityId>)
    ensures commands == Culled(q)
  {
    commands := [];
    var i := 0;
    while i < |q|
      invariant 0 <= i <= |q|
      invariant commands == Culled(q[..i])
    {
      CulledAppend(q[..i], [q[i]]);
      assert q[..i + 1] == q[..i] + [q[i]];
      if BelowBound(q[i]) {
        commands := commands + [q[i].entity];
      }
      i := i + 1;
    }
    assert q[..i] == q;
  }

  /** The commands for a concatenation are the commands for each part. */
  lemma {:induction false} CulledAppend(a: seq<Positioned>, b: seq<Positioned>)
    ensures Culled(a + b) == Culled(a) + Culled(b)
    decreases |a|
  {
    if |a| == 0 {
      assert a + b == b;
    } else {
      assert (a + b)[1..] == a[1..] + b;
      CulledAppend(a[1..], b);
    }
  }

  /** Survivors of a concatenation are the survivors of each part. */
  lemma {:induction false} SurvivorsAppend(a: seq<Positioned>, b: seq<Positioned>)
    ensures Survivors(a + b) == Survivors(a) + Survivors(b)
    decreases |a|
  {
    if |a| == 0 {
      assert a + b == b;
    } else {
      assert (a + b)[1..] == a[1..] + b;
      SurvivorsAppend(a[1..], b);
    }
  }

  /** Each row's fate depends on its own height alone: a row below the bound
      never survives, any other row survives as often as it occurs. */
  lemma {:induction false} SurvivorsCount(q: seq<Positioned>, p: Positioned)
    ensures multiset(Survivors(q))[p] == if BelowBound(p) then 0 else multiset(q)[p]
    decreases |q|
  {
    if |q| > 0 {
      SurvivorsCount(q[1..], p);
      assert q == [q[0]] + q[1..];
    }
  }

  /** The order in which the query yields its rows does not matter. */
  lemma OrderIndependent(q1: seq<Positioned>, q2: seq<Positioned>)
    requires multiset(q1) == multiset(q2)
    ensures multiset(Survivors(q1)) == multiset(Survivors(q2))
  {
    forall p: Positioned
      ensures multiset(Survivors(q1))[p] == multiset(Survivors(q2))[p]
    {
      SurvivorsCount(q1, p);
      SurvivorsCount(q2, p);
    }
  }

  /** Culled rows and surviving rows together account for the whole query. */
  lemma {:induction false} CulledAndSurvivorsPartition(q: seq<Positioned>)
    ensures |Culled(q)| + |Survivors(q)| == |q|
    decreases |q|
  {
    if |q| > 0 {
      CulledAndSurvivorsPartition(q[1..]);
    }
  }

  /** A second pass over the survivors despawns nothing and keeps them all. */
  lemma {:induction false} CullIdempotent(q: seq<Positioned>)
    ensures Culled(Survivors(q)) == []
    ensures Survivors(Survivors(q)) == Survivors(q)
    decreases |q|
  {
    if |q| > 0 {
      CullIdempotent(q[1..]);
      var head := if BelowBound(q[0]) then [] else [q[0]];
      CulledAppend(head, Survivors(q[1..]));
      SurvivorsAppend(head, Survivors(q[1..]));
    }
  }

  /** The comparison is strict: an entity exactly on the bound survives. */
  lemma OnBoundSurvives(e: EntityId, x: real, z: real)
    ensures Culled([Positioned(e, Vec3(x, -150.0, z))]) == []
    ensures Survivors([Positioned(e, Vec3(x, -150.0, z))]) == [Positioned(e, Vec3(x, -150.0, z))]
  {
  }

  /** An empty query issues no command. */
  lemma EmptyQueryIsNoOp()
    ensures Culled([]) == [] && Survivors([]) == []
  {
  }

  /** Each entity appears at most once in the query. */
  predicate DistinctEntities(q: seq<Positioned>) {
    forall i, j :: 0 <= i < j < |q| ==> q[i].entity != q[j].entity
  }

  /** The store after despawning the given entities. */
  function ApplyDespawns(q: seq<Positioned>, commands: seq<EntityId>): seq<Positioned> {
    if |q| == 0 then []
    else (if q[0].entity in commands then [] else [q[0]]) + ApplyDespawns(q[1..], commands)
  }

  /** Despawning by a command list removes exactly the rows its entities
      mark, whatever else the list holds. */
  lemma {:induction false} ApplyDespawnsFilters(q: seq<Positioned>, commands: seq<EntityId>)
    requires forall i :: 0 <= i < |q| ==> (q[i].entity in commands <==> BelowBound(q[i]))
    ensures ApplyDespawns(q, commands) == Survivors(q)
    decreases |q|
  {
    if |q| > 0 {
      ApplyDespawnsFilters(q[1..], commands);
    }
  }

  /** Applying the pass's commands leaves exactly the survivors. */
  lemma CommandsLeaveSurvivors(q: seq<Positioned>)
    requires DistinctEntities(q)
    ensures ApplyDespawns(q, Culled(q)) == Survivors(q)
  {
    forall i | 0 <= i < |q|
      ensures q[i].entity in Culled(q) <==> BelowBound(q[i])
    {
    }
    ApplyDespawnsFilters(q, Culled(q));
  }
}

=== FILE: mouse_interaction.dfy ===
/** The mouse-coordinate resource the player's skills read
    (src/player/mouse_interaction_plugin.rs). */
module MouseInteraction {
  import opened EngineTypes

  /** The last world position of the cursor. */
  datatype PlayerMouseCoor = PlayerMouseCoor(x: real, y: real)

  /** The conversion into a 2D vector. */
  function ToVec2(m: PlayerMouseCoor): (v: Vec2)
    ensures v.x == m.x && v.y == m.y
  {
    Vec2(m.x, m.y)
  }

  /** The resource's initial value: the origin. */
  function Default(): (m: PlayerMouseCoor)
    ensures ToVec2(m) == Vec2(0.0, 0.0)
  {
    PlayerMouseCoor(0.0, 0.0)
  }

  /** Overwrites both coordinates. */
  function Update(m: PlayerMouseCoor, x: real, y: real): (r: PlayerMouseCoor)
    ensures ToVec2(r) == Vec2(x, y)
  {
    m.(x := x, y := y)
  }

  /** The placeholder system that reads the resource and does nothing. */
  function AddChild(m: PlayerMouseCoor): (r: PlayerMouseCoor)
    ensures r == m
  {
    m
  }

  /** The conversion loses nothing: equal vectors come from equal records. */
  lemma ToVec2Injective(m1: PlayerMouseCoor, m2: PlayerMouseCoor)
    ensures ToVec2(m1) == ToVec2(m2) <==> m1 == m2
  {
  }

  /** An update forgets the previous value entirely. */
  lemma UpdateForgetsPrevious(m1: PlayerMouseCoor, m2: PlayerMouseCoor, x: real, y: real)
    ensures Update(m1, x, y) == Update(m2, x, y)
  {
  }

  /** Updating with a record's own coordinates restores that record. */
  lemma UpdateFromVec2RoundTrip(m: PlayerMouseCoor, other: PlayerMouseCoor)
    ensures Update(other, ToVec2(m).x, ToVec2(m).y) == m
  {
  }
}

=== FILE: player_skills.dfy ===
/** The current player's skills (src/player/player_plugin.rs): the shape
    toggle on the G key, spawning a cube under the mouse, despawning the cube
    the mouse points at, and keeping the mouse coordinates up to date. */
module PlayerSkills {
  import opened EngineTypes
  import opened RobotConstructor
  import MouseInteraction

  /** The size a toggle carries across: a circle's radius, a rectangle's width. */
  function CarriedSize(s: Shape): real {
    match s
    case Circle(r) => r
    case Rectangle(w, _) => w
  }

  /** The shape toggle: a circle becomes a square of the same size, a
      rectangle becomes a circle whose radius is its width. */
  function ToggleShape(s: Shape): (r: Shape)
    ensures r.Circle? <==> s.Rectangle?
    ensures CarriedSize(r) == CarriedSize(s)
    ensures r.Rectangle? ==> r.width == r.height
    ensures ValidShape(s) ==> ValidShape(r)
  {
    match s
    case Circle(radius) => Rectangle(radius, radius)
    case Rectangle(width, _) => Circle(width)
  }

  /** Toggling twice keeps a circle and squares a rectangle on its width. */
  lemma ToggleTwice(s: Shape)
    ensures ToggleShape(ToggleShape(s)) == (if s.Circle? then s else Rectangle(s.width, s.width))
  {
  }

  /** Toggling twice is the identity exactly on circles and squares. */
  lemma ToggleTwiceIdentityIff(s: Shape)
    ensures ToggleShape(ToggleShape(s)) == s <==> s.Circle? || s.width == s.height
  {
  }

  /** A 10 by 40 rectangle comes back as a 10 by 10 square. */
  lemma ToggleTwiceDropsHeight()
    ensures ToggleShape(ToggleShape(Rectangle(10.0, 40.0))) == Rectangle(10.0, 10.0)
    ensures ToggleShape(ToggleShape(Rectangle(10.0, 40.0))) != Rectangle(10.0, 40.0)
  {
  }

  /** One row of the query for entities holding both `Player` and `Shape`. */
  datatype PlayerWithShape = PlayerWithShape(entity: EntityId, shape: Shape)

  /** The shape insertion the toggle system issues. */
  datatype ShapeInsert = ShapeInsert(entity: EntityId, shape: Shape)

  /** The toggle system: it acts on a G-key release, and only when the query
      holds exactly one player; otherwise it issues nothing. */
  function ChangeShape(gJustReleased: bool, query: seq<PlayerWithShape>): (r: Option<ShapeInsert>)
    ensures r.Some? <==> gJustReleased && |query| == 1
    ensures r.Some? ==> r.value.entity == query[0].entity && r.value.shape == ToggleShape(query[0].shape)
  {
    if gJustReleased && |query| == 1 then
      Some(ShapeInsert(query[0].entity, ToggleShape(query[0].shape)))
    else
      None
  }

  /** The query is read from the store: every row is a live entity whose
      stored shape is the one the row shows. */
  predicate QueryReadsWorld(w: World, query: seq<PlayerWithShape>) {
    forall i :: 0 <= i < |query| ==> query[i].entity in w && w[query[i].entity].shape == Some(query[i].shape)
  }

  /** The toggle followed by the shape observer: the player ends with the
      toggled shape and the mesh and collider derived from it. */
  function ApplyChangeShape(w: World, gJustReleased: bool, query: seq<PlayerWithShape>): (r: World)
    requires QueryReadsWorld(w, query)
    ensures r.Keys == w.Keys
    ensures !(gJustReleased && |query| == 1) ==> r == w
    ensures gJustReleased && |query| == 1 ==>
              && r[query[0].entity].shape == Some(ToggleShape(query[0].shape))
              && Synchronized(r[query[0].entity])
              && SameButDerived(w[query[0].entity].(shape := Some(ToggleShape(query[0].shape))), r[query[0].entity])
              && (forall e :: e in w && e != query[0].entity ==> r[e] == w[e])
  {
    match ChangeShape(gJustReleased, query)
    case None => w
    case Some(ins) => InsertShape(w, ins.entity, ins.shape)
  }

  /** The cursor system: the coordinates change only when the cursor maps to
      a world position. */
  function UpdateMousePlayerCoor(worldPosition: Option<Vec2>, m: MouseInteraction.PlayerMouseCoor)
    : (r: MouseInteraction.PlayerMouseCoor)
    ensures worldPosition.None? ==> r == m
    ensures worldPosition.Some? ==> MouseInteraction.ToVec2(r) == worldPosition.value
  {
    match worldPosition
    case None => m
    case Some(p) => MouseInteraction.Update(m, p.x, p.y)
  }

  /** The cube the spawn skill creates. */
  datatype CubeSpawn = CubeSpawn(cube: Cube, translation: Vec3, shape: Shape)

  /** What one run of the spawn skill does: whether it resets the timer and
      which cube, if any, it spawns. */
  datatype SpawnOutcome = SpawnOutcome(resetTimer: bool, spawned: Option<CubeSpawn>)

  /** The spawn skill. `timerFinished` is the timer's state after this
      frame's tick. */
  function SpawnCubeSkill(leftPressed: bool, pPressed: bool, timerFinished: bool, m: MouseInteraction.PlayerMouseCoor)
    : (r: SpawnOutcome)
    ensures r.spawned.Some? <==> leftPressed && pPressed && timerFinished
    ensures r.resetTimer <==> r.spawned.Some?
    ensures r.spawned.Some? ==>
              && r.spawned.value.translation == Vec3(m.x, m.y, 0.0)
              && r.spawned.value.cube == Cube(30.0, 30.0)
              && r.spawned.value.shape == Circle(20.0)
  {
    if leftPressed && pPressed && timerFinished then
      SpawnOutcome(true, Some(CubeSpawn(Cube(30.0, 30.0), Vec3(m.x, m.y, 0.0), Circle(20.0))))
    else
      SpawnOutcome(false, None)
  }

  /** One row of the despawn query: an entity with a transform and a cube. */
  datatype CubeEntity = CubeEntity(entity: EntityId, translation: Vec3, cube: Cube, terrain: bool)

  /** `distance(mouse, pos) < height / 2`, without the square root: a
      distance is never negative, so this holds exactly when half the height
      is positive and the squared distance is below its square. */
  predicate WithinHalfHeight(mouse: Vec2, pos: Vec2, height: real) {
    var dx := pos.x - mouse.x;
    var dy := pos.y - mouse.y;
    var half := height / 2.0;
    half > 0.0 && dx * dx + dy * dy < half * half
  }

  /** A cube the despawn skill may pick: not terrain and strictly within
      half its height of the mouse. */
  predicate IsCandidate(mouse: Vec2, c: CubeEntity) {
    !c.terrain && WithinHalfHeight(mouse, Vec2(c.translation.x, c.translation.y), c.cube.height)
  }

  /** The position of the first candidate in query order, if any. */
  function FirstCandidate(mouse: Vec2, cs: seq<CubeEntity>): (r: Option<nat>)
    ensures r.Some? ==>
              && r.value < |cs|
              && IsCandidate(mouse, cs[r.value])
              && forall j :: 0 <= j < r.value ==> !IsCandidate(mouse, cs[j])
    ensures r.None? <==> forall j :: 0 <= j < |cs| ==> !IsCandidate(mouse, cs[j])
  {
    if |cs| == 0 then None
    else if IsCandidate(mouse, cs[0]) then Some(0)
    else
      match FirstCandidate(mouse, cs[1..])
      case None => None
      case Some(k) => Some(k + 1)
  }

  /** The despawn skill: while the right button is held, the first
      candidate in query order is despawned, and no other. */
  method DespawnCubeSkill(rightPressed: bool, m: MouseInteraction.PlayerMouseCoor, cs: seq<CubeEntity>)
    returns (despawned: Option<EntityId>)
    ensures !rightPressed ==> despawned.None?
    ensures rightPressed ==>
              despawned == (match FirstCandidate(MouseInteraction.ToVec2(m), cs)
                            case None => None
                            case Some(k) => Some(cs[k].entity))
  {
    despawned := None;
    if rightPressed {
      var mouse := MouseInteraction.ToVec2(m);
      var i := 0;
      while i < |cs|
        invariant 0 <= i <= |cs|
        invariant forall j :: 0 <= j < i ==> !IsCandidate(mouse, cs[j])
      {
        if IsCandidate(mouse, cs[i]) {
          despawned := Some(cs[i].entity);
          return;
        }
        i := i + 1;
      }
    }
  }

  /** Terrain is never picked, wherever it lies. */
  lemma TerrainNeverPicked(mouse: Vec2, cs: seq<CubeEntity>)
    requires forall j :: 0 <= j < |cs| ==> cs[j].terrain
    ensures FirstCandidate(mouse, cs).None?
  {
  }

  /** A freshly spawned cube is within reach of the mouse that placed it, so
      holding the right button without moving despawns it whenever no row
      before it in the query is a candidate. */
  lemma SpawnedCubeIsCandidate(m: MouseInteraction.PlayerMouseCoor, id: EntityId, cs: seq<CubeEntity>, k: nat)
    requires SpawnCubeSkill(true, true, true, m).spawned.Some?
    requires k < |cs|
    requires var c := SpawnCubeSkill(true, true, true, m).spawned.value;
             cs[k] == CubeEntity(id, c.translation, c.cube, false)
    requires forall j :: 0 <= j < k ==> !IsCandidate(MouseInteraction.ToVec2(m), cs[j])
    ensures FirstCandidate(MouseInteraction.ToVec2(m), cs) == Some(k)
  {
    assert IsCandidate(MouseInteraction.ToVec2(m), cs[k]);
  }
}

=== FILE: robot_constructor.dfy ===
/** The shape-driven attachment of meshes, colliders and materials, and the
    two-body robot joined by a rope joint (src/robot_constructor.rs).

    The engine's entity store is a map from entity handle to the handful of
    components these rules read and write. An observer is a function from
    store to store; the deferred command queue is collapsed into the order
    in which those functions are applied. */
module RobotConstructor {
  import opened EngineTypes

  /** The logical shape of an entity. Sizes follow rapier's half-extent
      convention: a rectangle of width w spans 2w. */
  datatype Shape = Circle(radius: real) | Rectangle(width: real, height: real)

  /** Positive sizes. The game never checks them; a zero or negative size
      is the caller's mistake. */
  predicate ValidShape(s: Shape) {
    match s
    case Circle(r) => r > 0.0
    case Rectangle(w, h) => w > 0.0 && h > 0.0
  }

  /** The mesh and collider the insert observer derives from a shape. */
  datatype Derived = Derived(mesh: Mesh, collider: Collider)

  /** The pair built by the `match` of the insert observer. A rectangle's mesh
      is doubled because rapier's cuboid takes half extents, so that what is
      drawn and what collides have the same footprint. */
  function MeshBundle(s: Shape): (d: Derived)
    ensures MeshExtent(d.mesh) == ColliderExtent(d.collider)
    ensures d.mesh.CircleMesh? <==> s.Circle?
    ensures d.collider.RapierBall? <==> s.Circle?
    ensures s.Circle? ==> d.mesh == CircleMesh(s.radius) && d.collider == RapierBall(s.radius)
    ensures s.Rectangle? ==>
              MeshExtent(d.mesh) == Vec2(2.0 * s.width, 2.0 * s.height)
              && d.collider == RapierCuboid(s.width, s.height)
  {
    match s
    case Circle(r) => Derived(CircleMesh(r), RapierBall(r))
    case Rectangle(w, h) => Derived(RectangleMesh(w * 2.0, h * 2.0), RapierCuboid(w, h))
  }

  /** Reads a shape back from a rapier collider; avian colliders carry none. */
  function ShapeOfCollider(c: Collider): Option<Shape> {
    match c
    case RapierBall(r) => Some(Circle(r))
    case RapierCuboid(hw, hh) => Some(Rectangle(hw, hh))
    case AvianRectangle(_, _) => None
  }

  /** The derived collider determines the shape it came from. */
  lemma ColliderDeterminesShape(s: Shape)
    ensures ShapeOfCollider(MeshBundle(s).collider) == Some(s)
  {
  }

  /** Distinct shapes never share derived state, so derived state left over
      from an older shape is always distinguishable from the current one. */
  lemma MeshBundleInjective(s1: Shape, s2: Shape)
    ensures MeshBundle(s1) == MeshBundle(s2) <==> s1 == s2
  {
    ColliderDeterminesShape(s1);
    ColliderDeterminesShape(s2);
  }

  datatype RobotPart = Head | Ball

  /** A rope joint of the given maximal length between two local anchors. */
  datatype RopeJoint = RopeJoint(length: real, localAnchor1: Vec2, localAnchor2: Vec2)

  /** The joint component, stored on the child and naming the parent. */
  datatype ImpulseJoint = ImpulseJoint(parent: EntityId, joint: RopeJoint)

  datatype Components = Components(
    part: Option<RobotPart>,
    shape: Option<Shape>,
    color: Option<Color>,
    mesh: Option<Mesh>,
    collider: Option<Collider>,
    material: Option<Material>,
    joint: Option<ImpulseJoint>,
    translation: Option<Vec3>)

  type World = map<EntityId, Components>

  /** The entity's mesh and collider are exactly those derived from its shape. */
  predicate Synchronized(c: Components) {
    && c.shape.Some?
    && c.mesh == Some(MeshBundle(c.shape.value).mesh)
    && c.collider == Some(MeshBundle(c.shape.value).collider)
  }

  /** Two component sets agree on everything but the mesh and the collider. */
  predicate SameButDerived(a: Components, b: Components) {
    a.(mesh := b.mesh, collider := b.collider) == b
  }

  /** Two component sets agree on everything but the material. */
  predicate SameButMaterial(a: Components, b: Components) {
    a.(material := b.material) == b
  }

  /** The observer run each time a `Shape` is inserted. The target is read
      back from the store; when it is gone or holds no shape the observer
      does nothing. Otherwise the mesh and collider are replaced, not merged. */
  function OnInsertShape(w: World, id: EntityId): (r: World)
    ensures r.Keys == w.Keys
    ensures forall e :: e in w && e != id ==> r[e] == w[e]
    ensures id !in w || w[id].shape.None? ==> r == w
    ensures id in w && w[id].shape.Some? ==> Synchronized(r[id]) && SameButDerived(w[id], r[id])
  {
    if id in w && w[id].shape.Some? then
      var d := MeshBundle(w[id].shape.value);
      w[id := w[id].(mesh := Some(d.mesh), collider := Some(d.collider))]
    else
      w
  }

  /** The observer run when an `EntityColor` is added. The colour is
      unwrapped, so the entity must hold one. */
  function OnAddEntityColor(w: World, id: EntityId): (r: World)
    requires id in w && w[id].color.Some?
    ensures r.Keys == w.Keys
    ensures forall e :: e in w && e != id ==> r[e] == w[e]
    ensures r[id].material == Some(ColorMaterial(w[id].color.value))
    ensures SameButMaterial(w[id], r[id])
  {
    w[id := w[id].(material := Some(ColorMaterial(w[id].color.value)))]
  }

  /** Inserting a shape on a live entity: the component is replaced, then the
      insert observer fires. */
  function InsertShape(w: World, id: EntityId, s: Shape): (r: World)
    requires id in w
    ensures r.Keys == w.Keys
    ensures forall e :: e in w && e != id ==> r[e] == w[e]
    ensures r[id].shape == Some(s) && Synchronized(r[id])
    ensures SameButDerived(w[id].(shape := Some(s)), r[id])
  {
    OnInsertShape(w[id := w[id].(shape := Some(s))], id)
  }

  /** Replacing a shape leaves nothing of the previous one behind. */
  lemma InsertShapeLastWins(w: World, id: EntityId, s1: Shape, s2: Shape)
    requires id in w
    ensures InsertShape(InsertShape(w, id, s1), id, s2) == InsertShape(w, id, s2)
  {
  }

  /** Inserting a colour on a live entity. The colour observer listens for
      additions only, so a colour that replaces an earlier one leaves the
      material built from the earlier one in place. */
  function InsertColor(w: World, id: EntityId, c: Color): (r: World)
    requires id in w
    ensures r.Keys == w.Keys
    ensures forall e :: e in w && e != id ==> r[e] == w[e]
    ensures r[id].color == Some(c)
    ensures w[id].color.None? ==> r[id].material == Some(ColorMaterial(c))
    ensures w[id].color.Some? ==> r[id].material == w[id].material
    ensures SameButMaterial(w[id].(color := Some(c)), r[id])
  {
    var w1 := w[id := w[id].(color := Some(c))];
    if w[id].color.None? then OnAddEntityColor(w1, id) else w1
  }

  /** Setting a shape and setting a colour commute: each observer writes only
      the components derived from its own input. */
  lemma InsertShapeColorCommute(w: World, id: EntityId, s: Shape, c: Color)
    requires id in w
    ensures InsertColor(InsertShape(w, id, s), id, c) == InsertShape(InsertColor(w, id, c), id, s)
  {
  }

  /** The components of a robot part the rules here depend on. */
  datatype Bundle = Bundle(part: RobotPart, shape: Shape, color: Color, translation: Vec3)

  /** Spawning a bundle on a fresh handle: its components are added, which
      fires both the shape observer and the colour observer. */
  function Spawn(w: World, id: EntityId, b: Bundle): (r: World)
    requires id !in w
    ensures r.Keys == w.Keys + {id}
    ensures forall e :: e in w ==> r[e] == w[e]
    ensures r[id].part == Some(b.part) && r[id].shape == Some(b.shape)
    ensures r[id].color == Some(b.color) && r[id].translation == Some(b.translation)
    ensures Synchronized(r[id]) && r[id].material == Some(ColorMaterial(b.color))
    ensures r[id].joint.None?
  {
    var w1 := w[id := Components(Some(b.part), Some(b.shape), Some(b.color), None, None, None, None, Some(b.translation))];
    OnAddEntityColor(OnInsertShape(w1, id), id)
  }

  const HeadHeight: real := 40.0
  const HeadWidth: real := 30.0
  const BallRadius: real := 60.0
  const RopeLength: real := 30.0
  const HeadColor: Color := LinearRgb(0.1, 1.0, 0.3)
  const BallColor: Color := LinearRgb(0.0, 0.5, 1.0)

  /** The head bundle. Note the argument order: height first, width second. */
  function RobotHead(height: real, width: real): (b: Bundle)
    ensures b.part == Head && b.shape == Rectangle(width, height)
    ensures b.color == HeadColor
  {
    Bundle(Head, Rectangle(width, height), HeadColor, Vec3(0.0, 200.0, 0.0))
  }

  /** The ball bundle. */
  function RobotBall(radius: real): (b: Bundle)
    ensures b.part == Ball && b.shape == Circle(radius)
    ensures b.color == BallColor
  {
    Bundle(Ball, Circle(radius), BallColor, Vec3(0.0, 100.0, 0.0))
  }

  /** Spawns the ball on `child`, then the head on `parent`, joins the ball to
      the head with a rope, and returns the head. Handle allocation is the
      engine's, so the two fresh handles are parameters. */
  function SpawnRobot(w: World, child: EntityId, parent: EntityId): (r: (World, EntityId))
    requires child != parent && child !in w && parent !in w
    ensures r.1 == parent
    ensures r.0.Keys == w.Keys + {child, parent}
    ensures forall e :: e in w ==> r.0[e] == w[e]
    ensures r.0[child].joint
            == Some(ImpulseJoint(parent, RopeJoint(RopeLength, Vec2(0.0, -2.0 * BallRadius), Vec2(0.0, HeadHeight / 2.0))))
    ensures r.0[parent].joint.None?
    ensures r.0[parent].part == Some(Head) && r.0[child].part == Some(Ball)
    ensures Synchronized(r.0[parent]) && Synchronized(r.0[child])
    ensures r.0[parent].collider == Some(RapierCuboid(HeadWidth, HeadHeight))
    ensures MeshExtent(r.0[parent].mesh.value) == Vec2(2.0 * HeadWidth, 2.0 * HeadHeight)
    ensures r.0[child].collider == Some(RapierBall(BallRadius))
    ensures r.0[child].mesh == Some(CircleMesh(BallRadius))
    ensures r.0[parent].material == Some(ColorMaterial(HeadColor))
    ensures r.0[child].material == Some(ColorMaterial(BallColor))
  {
    var rope := RopeJoint(RopeLength, Vec2(0.0, -BallRadius * 2.0), Vec2(0.0, HeadHeight / 2.0));
    var w1 := Spawn(w, child, RobotBall(BallRadius));
    var w2 := Spawn(w1, parent, RobotHead(HeadHeight, HeadWidth));
    (w2[child := w2[child].(joint := Some(ImpulseJoint(parent, rope)))], parent)
  }
}

=== FILE: ui_systems.dfy ===
/** The click-mode button (src/ui/systems.rs): pressing it flips the player's
    click mode between spawning and joining cubes and relabels it; every
    interaction restyles it. */
module UiSystems {
  import EngineTypes

  datatype ClickMode = SpawnCube | JoinCube

  datatype Interaction = Pressed | Hovered | None

  datatype BackgroundColor = NormalButton | HoveredButton | PressedButton

  datatype BorderColor = Red | White | Black

  /** A button as the system sees it: its interaction, whether that
      interaction changed this frame, its colours and its child's text. */
  datatype Button = Button(
    interaction: Interaction,
    changed: bool,
    background: BackgroundColor,
    border: BorderColor,
    text: string)

  function Flip(m: ClickMode): (r: ClickMode)
    ensures r != m
  {
    match m
    case SpawnCube => JoinCube
    case JoinCube => SpawnCube
  }

  /** The text written for a mode. */
  function Label(m: ClickMode): string {
    match m
    case SpawnCube => "SpawnCube"
    case JoinCube => "JoinCube"
  }

  /** Reads a mode back from a button's text. */
  function ModeNamed(s: string): EngineTypes.Option<ClickMode> {
    if s == "SpawnCube" then EngineTypes.Some(SpawnCube)
    else if s == "JoinCube" then EngineTypes.Some(JoinCube)
    else EngineTypes.None
  }

  /** Every label names the mode it was written for. */
  lemma LabelNamesMode(m: ClickMode)
    ensures ModeNamed(Label(m)) == EngineTypes.Some(m)
  {
  }

  /** The colours an interaction selects. */
  function Style(i: Interaction): (BackgroundColor, BorderColor) {
    match i
    case Pressed => (PressedButton, Red)
    case Hovered => (HoveredButton, White)
    case None => (NormalButton, Black)
  }

  /** The loop body for one button whose interaction changed. */
  function ButtonStep(mode: ClickMode, b: Button): (r: (ClickMode, Button))
    ensures b.interaction == Pressed ==> r.0 == Flip(mode) && ModeNamed(r.1.text) == EngineTypes.Some(r.0)
    ensures b.interaction != Pressed ==> r.0 == mode && r.1.text == b.text
    ensures b.interaction == Pressed ==> r.1.background == PressedButton && r.1.border == Red
    ensures b.interaction == Hovered ==> r.1.background == HoveredButton && r.1.border == White
    ensures b.interaction == None ==> r.1.background == NormalButton && r.1.border == Black
    ensures r.1.interaction == b.interaction && r.1.changed == b.changed
  {
    var (bg, border) := Style(b.interaction);
    var newMode := if b.interaction == Pressed then Flip(mode) else mode;
    var text := if b.interaction == Pressed then Label(newMode) else b.text;
    (newMode, b.(background := bg, border := border, text := text))
  }

  /** Two presses restore the mode. */
  lemma PressTwiceRestoresMode(mode: ClickMode, b1: Button, b2: Button)
    requires b1.interaction == Pressed && b2.interaction == Pressed
    ensures ButtonStep(ButtonStep(mode, b1).0, b2).0 == mode
  {
  }

  /** The number of buttons pressed this frame. */
  function PressedCount(bs: seq<Button>): nat {
    if |bs| == 0 then 0
    else (if bs[0].changed && bs[0].interaction == Pressed then 1 else 0) + PressedCount(bs[1..])
  }

  /** The mode after n presses. */
  function FlipTimes(mode: ClickMode, n: nat): ClickMode {
    if n % 2 == 0 then mode else Flip(mode)
  }

  /** Presses compose by adding their counts. */
  lemma FlipTimesAdd(mode: ClickMode, a: nat, b: nat)
    ensures FlipTimes(FlipTimes(mode, a), b) == FlipTimes(mode, a + b)
  {
  }

  /** The presses among the buttons up to and including the i-th. */
  function PressesThrough(bs: seq<Button>, i: nat): nat
    requires i < |bs|
  {
    PressedCount(bs[..i + 1])
  }

  /** Counting the presses of a prefix: the first button, then a prefix of the rest. */
  lemma PressesThroughTail(bs: seq<Button>, i: nat)
    requires 0 < i < |bs|
    ensures PressesThrough(bs, i)
            == (if bs[0].changed && bs[0].interaction == Pressed then 1 else 0) + PressesThrough(bs[1..], i - 1)
  {
    assert bs[..i + 1][1..] == bs[1..][..i - 1 + 1];
  }

  /** `out` and `final` are what the system leaves after visiting `bs` in
      order from `mode`: only buttons whose interaction changed are touched,
      every button keeps its interaction and flag, a touched button takes the
      colours of its interaction, only a press rewrites the text, the mode
      flips once per press, and a pressed button's text names the mode just
      after its own press. */
  predicate Processed(mode: ClickMode, bs: seq<Button>, out: seq<Button>, final: ClickMode) {
    && |out| == |bs|
    && final == FlipTimes(mode, PressedCount(bs))
    && (forall i :: 0 <= i < |bs| && !bs[i].changed ==> out[i] == bs[i])
    && (forall i :: 0 <= i < |bs| ==> out[i].interaction == bs[i].interaction && out[i].changed == bs[i].changed)
    && (forall i :: 0 <= i < |bs| && bs[i].changed ==> (out[i].background, out[i].border) == Style(bs[i].interaction))
    && (forall i :: 0 <= i < |bs| && bs[i].interaction != Pressed ==> out[i].text == bs[i].text)
    && (forall i :: 0 <= i < |bs| && bs[i].changed && bs[i].interaction == Pressed ==>
          ModeNamed(out[i].text) == EngineTypes.Some(FlipTimes(mode, PressesThrough(bs, i))))
  }

  /** Visiting one more button in front keeps `Processed`. */
  lemma ProcessedCons(mode: ClickMode, bs: seq<Button>, step: (ClickMode, Button), rest: seq<Button>, final: ClickMode)
    requires |bs| > 0
    requires step == if bs[0].changed then ButtonStep(mode, bs[0]) else (mode, bs[0])
    requires Processed(step.0, bs[1..], rest, final)
    ensures Processed(mode, bs, [step.1] + rest, final)
  {
    var head := if bs[0].changed && bs[0].interaction == Pressed then 1 else 0;
    FlipTimesAdd(mode, head, PressedCount(bs[1..]));
    forall i | 0 <= i < |bs| {
      ProcessedConsAt(mode, bs, step, rest, final, i);
    }
  }

  /** The `Processed` facts about the i-th button once one more button is
      visited in front. */
  lemma ProcessedConsAt(mode: ClickMode, bs: seq<Button>, step: (ClickMode, Button), rest: seq<Button>, final: ClickMode, i: nat)
    requires i < |bs|
    requires step == if bs[0].changed then ButtonStep(mode, bs[0]) else (mode, bs[0])
    requires Processed(step.0, bs[1..], rest, final)
    ensures var r := [step.1] + rest;
            && (!bs[i].changed ==> r[i] == bs[i])
            && r[i].interaction == bs[i].interaction && r[i].changed == bs[i].changed
            && (bs[i].changed ==> (r[i].background, r[i].border) == Style(bs[i].interaction))
            && (bs[i].interaction != Pressed ==> r[i].text == bs[i].text)
            && (bs[i].changed && bs[i].interaction == Pressed ==>
                  ModeNamed(r[i].text) == EngineTypes.Some(FlipTimes(mode, PressesThrough(bs, i))))
  {
    var head := if bs[0].changed && bs[0].interaction == Pressed then 1 else 0;
    var r := [step.1] + rest;
    if i == 0 {
      assert bs[..1][0] == bs[0] && bs[..1][1..] == [];
      assert PressedCount(bs[..1]) == head + PressedCount(bs[..1][1..]);
    } else {
      assert r[i] == rest[i - 1] && bs[i] == bs[1..][i - 1];
      if bs[i].changed && bs[i].interaction == Pressed {
        PressesThroughTail(bs, i);
        FlipTimesAdd(mode, head, PressesThrough(bs[1..], i - 1));
      }
    }
  }

  /** The button system over all buttons, in query order. Only buttons whose
      interaction changed are touched; the mode flips once per press, and a
      pressed button's text names the mode just after its press. */
  function ButtonSystem(mode: ClickMode, bs: seq<Button>): (r: (ClickMode, seq<Button>))
    ensures |r.1| == |bs|
    ensures r.0 == FlipTimes(mode, PressedCount(bs))
    ensures forall i :: 0 <= i < |bs| && !bs[i].changed ==> r.1[i] == bs[i]
    ensures forall i :: 0 <= i < |bs| ==> r.1[i].interaction == bs[i].interaction && r.1[i].changed == bs[i].changed
    ensures forall i :: 0 <= i < |bs| && bs[i].changed ==> (r.1[i].background, r.1[i].border) == Style(bs[i].interaction)
    ensures forall i :: 0 <= i < |bs| && bs[i].interaction != Pressed ==> r.1[i].text == bs[i].text
    ensures forall i :: 0 <= i < |bs| && bs[i].changed && bs[i].interaction == Pressed ==>
              ModeNamed(r.1[i].text) == EngineTypes.Some(FlipTimes(mode, PressesThrough(bs, i)))
    decreases |bs|
  {
    if |bs| == 0 then (mode, [])
    else
      var step := if bs[0].changed then ButtonStep(mode, bs[0]) else (mode, bs[0]);
      var tail := ButtonSystem(step.0, bs[1..]);
      ProcessedCons(mode, bs, step, tail.1, tail.0);
      (tail.0, [step.1] + tail.1)
  }

  /** The text of the last pressed button names the final mode. */
  lemma LastPressNamesFinalMode(mode: ClickMode, bs: seq<Button>, i: nat)
    requires i < |bs| && bs[i].changed && bs[i].interaction == Pressed
    requires PressedCount(bs[i + 1..]) == 0
    ensures ModeNamed(ButtonSystem(mode, bs).1[i].text) == EngineTypes.Some(ButtonSystem(mode, bs).0)
  {
    assert bs == bs[..i + 1] + bs[i + 1..];
    PressedCountAppend(bs[..i + 1], bs[i + 1..]);
  }

  /** Presses of a concatenation add up. */
  lemma {:induction false} PressedCountAppend(a: seq<Button>, b: seq<Button>)
    ensures PressedCount(a + b) == PressedCount(a) + PressedCount(b)
    decreases |a|
  {
    if |a| == 0 {
      assert a + b == b;
    } else {
      assert (a + b)[1..] == a[1..] + b;
      PressedCountAppend(a[1..], b);
    }
  }
}
